=== FILE: README.md ===
# Spendy authentication and session core, in Dafny

This project models the authentication and session layer of the Spendy
expense-tracking app (a React Native / Firebase application):

- `AuthService` (src/services/firebase/auth.ts): register, login, logout,
  password reset, profile update and "who is signed in", over an in-memory
  stand-in for Firebase Authentication and the Firestore `users` collection;
- the `useAuth` hook (src/hooks/useAuth.ts): the session state
  `(user, isLoading)`, its `onAuthStateChanged` handler and its `login`,
  `register`, `logout` and `updateUser` actions;
- the handler logic of the registration and login screens
  (src/screens/auth/RegisterScreen.tsx, src/screens/auth/LoginScreen.tsx):
  the required-field guards, the biometric-availability branch and the
  Enable / Not Now choice, the register payload, and the biometric login
  button.

## Files and modules

| file | module | models |
|---|---|---|
| outcomes.dfy | `Outcomes` | `Option` (`null`), `Result` (a settled promise; every failure is one generic `Err`) |
| records.dfy | `Records` | the `User` record as a JavaScript object with optional fields; object spread (`Overlay`) |
| firebase.dfy | `Firebase` | the backend: accounts (case-insensitive e-mail → uid and password), profiles (uid → record), the signed-in credential, the clock; the set `down` of remote calls that fail |
| auth_service.dfy | `AuthService` | auth.ts |
| use_auth.dfy | `UseAuth` | useAuth.ts as a pure state machine driven by settled outcomes |
| screens.dfy | `Screens` | the external calls a screen handler makes |
| register_screen.dfy | `RegisterScreen` | RegisterScreen.tsx handlers |
| login_screen.dfy | `LoginScreen` | LoginScreen.tsx handlers |
| auth_system.dfy | `AuthSystem` | the hook wired to `AuthService`; App's hook instance and the calling screen's instance; the screens' calls run against the backend and both instances |

Modelling choices:

- Remote calls (Firebase) become map operations. Whatever the model cannot
  see (network, quota, provider policy such as a weak password or a
  malformed address) is the parameter `down: set<Remote>`: the calls that
  fail this time. The uid of a new account and the time between the two
  `new Date()` calls of `register` are parameters too.
- Async calls are modelled by their settled outcome. A hook action returns
  the next state and whether its promise rejects; a screen handler returns
  its next screen state, the calls it made in order, and whether a failure
  escapes it (an unhandled rejection).
- Every component that calls `useAuth()` has a hook instance of its own,
  with its own `(user, isLoading)` and its own identity subscription. The
  model keeps two: App's (App.tsx:19), whose `user` chooses between the main
  tabs and the auth screens, and the calling screen's (LoginScreen.tsx:21,
  RegisterScreen.tsx:23), which `login`, `register`, `logout` and
  `updateUser` update. App's instance changes only through its own
  identity handler.
- `BiometricService` and `COUNTRIES` are not part of this model. Biometric
  availability is an input `Result<bool>` (`Err` when the probe throws).
  The country table is an input sequence of `(code, currency)` entries.

Behaviour of the code that a reader might not expect, which the model follows:

- the identity-change handler has no stale-event guard: whichever fetch
  settles last sets the user (`UseAuth.LastSettledFetchWins`);
- a profile fetch that throws keeps the previous user rather than signing
  out;
- there is no error taxonomy: every failure is one generic error;
- `resetPassword` passes the provider's outcome through. Nothing prevents
  account enumeration;
- `createdAt` and `updatedAt` come from two separate clock readings, so the
  model proves `createdAt <= updatedAt`, not equality;
- `updateUser` stamps `updatedAt` with the current clock. That is not
  necessarily later than the previous stamp;
- the stored profile has no `email` field: `register` destructures it out
  together with the password;
- a screen's `login` or `register` updates only that screen's hook
  instance, which the screen never reads; App learns of the new identity
  only through its own identity handler and its own profile fetch
  (`AuthSystem.LoginReachesApp`, `AuthSystem.RegistrationReachesApp`);
- creating the credential signs the new account in before `register` has
  written the profile. If App's fetch runs in that window it finds no
  profile, and no later identity change follows, so App keeps showing the
  auth screens for a registered, signed-in account
  (`AuthSystem.EarlyIdentityEventMissesProfile`);
- `updateUser` from a screen changes that screen's copy of the user, not
  App's.

## Model

| member | source | states |
|---|---|---|
| Firebase.Canonical | src/services/firebase/auth.ts:17 | the key an address is stored and looked up under folds ASCII upper case to lower case, letter by letter, keeping the length |
| Firebase.CanonicalIdempotent | src/services/firebase/auth.ts:37 | folding an already folded address changes nothing |
| Firebase.SameAccountIffCaseInsensitive | src/services/firebase/auth.ts:37 | two addresses name the same account exactly when they have the same length and agree letter by letter up to case |
| AuthService.SignedUp | src/services/firebase/auth.ts:17 | once the credential is created the account exists under the folded address with the new uid and the password, other accounts are kept, the new uid is signed in and no profile has been written yet |
| AuthService.NewProfile | src/services/firebase/auth.ts:16-24 | the stored record has neither e-mail nor password; every other payload field is copied unchanged; its id is the new uid unless the payload carries an id (which wins the spread); createdAt and updatedAt are the two clock readings |
| AuthService.Register | src/services/firebase/auth.ts:14-33 | a refused credential (missing address or password, address already used in any case, provider refusal) changes nothing and fails; an accepted one adds the account and signs it in; success returns exactly the record stored under its own id (the new uid when the payload has none), with createdAt <= updatedAt |
| AuthService.RegisterOutcome | src/services/firebase/auth.ts:17-31 | register succeeds iff credential creation, profile write and display-name update all succeed; a failed write leaves a credential with no profile; a failed display-name update fails register but leaves the profile stored |
| AuthService.RegisterStoresUnderUid | src/services/firebase/auth.ts:17-29 | with no id in the payload and every call succeeding, the profile is stored under the new uid, that uid is signed in, and the stored record is returned |
| AuthService.RegisterThenGetCurrentUser | src/services/firebase/auth.ts:26-29 | after a successful register, getCurrentUser returns exactly the record register returned |
| AuthService.RegisterThenLogin | src/services/firebase/auth.ts:37-44 | login with the registered e-mail, typed in any case, and the registered password returns the record register returned, whose id is the new uid |
| AuthService.Login | src/services/firebase/auth.ts:35-48 | login succeeds iff the provider accepts the pair, the profile read succeeds and the uid has a profile, and then returns that stored profile; an accepted pair whose read fails or whose uid has no profile fails yet leaves the account signed in; a refused pair changes nothing |
| AuthService.LoginIgnoresCase | src/services/firebase/auth.ts:37 | two spellings of an address that differ only in letter case log in, or fail, identically |
| AuthService.LoginWrongPassword | src/services/firebase/auth.ts:37 | a wrong password for a known address fails and changes nothing |
| AuthService.Logout | src/services/firebase/auth.ts:50-52 | logout succeeds iff sign-out does, and then clears the signed-in credential and nothing else; on failure nothing changes |
| AuthService.LogoutTwice | src/services/firebase/auth.ts:50-52 | a second logout after a successful one succeeds (provider reachable) and changes nothing; getCurrentUser then answers null |
| AuthService.ResetPassword | src/services/firebase/auth.ts:54-56 | the backend is unchanged and the result is the provider's outcome, passed through |
| AuthService.UpdateUser | src/services/firebase/auth.ts:58-63 | the update succeeds iff the document exists and the store accepts it; the given fields replace the stored ones, updatedAt becomes the clock, every other field and every other profile is unchanged; on failure nothing changes |
| AuthService.StampsStayBehindClock | src/services/firebase/auth.ts:22-23 | register, updateUser and time passing keep every stored updatedAt at or before the clock |
| AuthService.UpdateAfterTickIsLater | src/services/firebase/auth.ts:58-62 | when time has passed since the last write, an update stamps a time strictly later than the profile's previous updatedAt |
| AuthService.UpdateThenGetCurrentUser | src/services/firebase/auth.ts:58-62 | after updating the signed-in profile, getCurrentUser shows every updated field and updatedAt equal to the clock |
| AuthService.GetCurrentUser | src/services/firebase/auth.ts:65-71 | null when nothing is signed in; fails iff a credential is signed in and the read fails; otherwise the stored profile of the signed-in uid, or null when it has none |
| AuthService.SignedOutSkipsStore | src/services/firebase/auth.ts:66-67 | with nothing signed in the answer is null whatever the stored profiles and whatever the store's faults: the store is not read |
| UseAuth.OnAuthStateChanged | src/hooks/useAuth.ts:12-24 | after any identity event isLoading is false; absent credential: user null; fetch settled: user is the fetched value (possibly null); fetch threw: user unchanged, and the handler returns a state, never a rejection |
| UseAuth.AdoptProfile | src/hooks/useAuth.ts:29-37 | login/register reject iff the service call fails, leaving the state unchanged; on success the user is the returned profile and the session is authenticated (isAuthenticated is exactly `user != null`); isLoading untouched |
| UseAuth.Logout | src/hooks/useAuth.ts:39-42 | the user is cleared only when sign-out succeeds; a failed sign-out rejects and changes nothing |
| UseAuth.UpdateUser | src/hooks/useAuth.ts:44-48 | with no user: no rejection and no change, whatever the store would do; a failed store call rejects and changes nothing; otherwise the local user is the old user overlaid with the updates (updatedAt is not refreshed locally) |
| UseAuth.AuthenticationFollowsInputs | src/hooks/useAuth.ts:12-53 | isAuthenticated (user != null) becomes true after a successful login or register or a fetch that found a profile, false after a successful logout, a signed-out event or a fetch that found none, and is unchanged by every rejection |
| UseAuth.LoadingUntilIdentityKnown | src/hooks/useAuth.ts:9-23 | after any run of inputs, isLoading holds iff it held at the start and no identity handler has finished (a handler that is still fetching leaves it loading) |
| UseAuth.LoadedStaysLoaded | src/hooks/useAuth.ts:23 | once isLoading is false no sequence of inputs makes it true again |
| UseAuth.ApplyKeepsLoadedState | src/hooks/useAuth.ts:23 | no single input sets isLoading back to true |
| UseAuth.BootLoading | src/hooks/useAuth.ts:8-9 | from the initial state (user null, isLoading true) the hook reports loading exactly until the first identity handler has finished |
| UseAuth.FailedActionsLeaveState | src/hooks/useAuth.ts:29-48 | a rejected login, register, logout or update, and an update with no user, leave the state unchanged |
| UseAuth.LastSettledFetchWins | src/hooks/useAuth.ts:13-16 | there is no stale-event guard: after any history of inputs, the last fetch to settle sets the user to what it found, a profile or null, and loading is over |
| RegisterScreen.FindByCode | src/screens/auth/RegisterScreen.tsx:34 | the result is the first index whose code matches, or none when no entry matches |
| RegisterScreen.SelectedCountry | src/screens/auth/RegisterScreen.tsx:34 | the first entry whose code matches the form's country, else the first entry of the table; nothing only for an empty table |
| RegisterScreen.InitialCountry | src/screens/auth/RegisterScreen.tsx:26-34 | the form starts on "AU", so the first "AU" entry of the table is selected |
| RegisterScreen.Payload | src/screens/auth/RegisterScreen.tsx:58-62 | the payload carries every form field (password and country code included), the selected country's currency and the chosen flag, and no id or stamps |
| RegisterScreen.Complete | src/screens/auth/RegisterScreen.tsx:57-65 | completeRegistration submits at most one payload, with the selected country's currency and the given flag, and none only when there is no country to read the currency from |
| RegisterScreen.HandleRegister | src/screens/auth/RegisterScreen.tsx:36-55 | an empty name, e-mail, mobile or password makes no call and changes nothing (country is not checked); otherwise the probe comes first, loading ends false and nothing escapes; available: only the prompt is shown; unavailable: completeRegistration(false); probe threw: nothing is submitted |
| RegisterScreen.ChooseBiometrics | src/screens/auth/RegisterScreen.tsx:78-94 | Enable / Not Now hide the prompt and then submit with the chosen flag; a failure escapes as an unhandled rejection |
| RegisterScreen.PromptDefersRegistration | src/screens/auth/RegisterScreen.tsx:44-48 | with biometrics available nothing is submitted until the prompt is answered; the single payload then carries the chosen flag |
| RegisterScreen.UnavailableSubmitsOnce | src/screens/auth/RegisterScreen.tsx:44-64 | without biometrics the payload is submitted exactly once, with the form's fields, the selected currency and the flag off |
| LoginScreen.CheckAvailability | src/screens/auth/LoginScreen.tsx:32-35 | the probe's answer becomes biometricAvailable; a probe that throws escapes and changes nothing |
| LoginScreen.BiometricButtonNeedsAvailability | src/screens/auth/LoginScreen.tsx:26-35 | the biometric button (rendered only when biometricAvailable) is hidden on mount and shown after the availability check exactly when it answered yes |
| LoginScreen.HandleLogin | src/screens/auth/LoginScreen.tsx:37-51 | an empty e-mail or password makes no call; otherwise login is called once with exactly the typed pair and, whether it succeeds or fails, nothing escapes and loading ends false |
| LoginScreen.HandleBiometricLogin | src/screens/auth/LoginScreen.tsx:53-68 | whether the challenge succeeds, fails or throws: only the challenge is called, never login; nothing escapes; only biometricLoading changes (to false) |
| AuthSystem.Notify | src/hooks/useAuth.ts:12-24 | one instance's identity handler: loading ends; no credential: no user; its fetch throws: user kept; its fetch succeeds: the instance shows the stored profile of the signed-in uid, or no user when it has none |
| AuthSystem.Login | src/hooks/useAuth.ts:29-32 | an accepted pair signs in exactly the account of the (case-folded) address and nothing else in the backend changes; a refused pair changes nothing; the caller's hook rejects iff the service login fails, its state then unchanged; on success the caller's instance shows the stored profile of the signed-in account; App's instance is untouched |
| AuthSystem.Register | src/hooks/useAuth.ts:34-37 | the backend becomes the service's; the caller's hook rejects iff the service register fails, its state then unchanged; on success the caller's user is the record register returned, whatever the payload, and (payload without id) the new uid is signed in and the caller's instance shows its stored profile; the caller's isLoading is kept; App's instance is untouched |
| AuthSystem.Logout | src/hooks/useAuth.ts:39-42 | rejects iff sign-out fails, changing nothing; otherwise only the signed-in credential is cleared in the backend, the caller's instance has no user and App's instance is untouched |
| AuthSystem.UpdateUser | src/hooks/useAuth.ts:44-48 | caller without a user: no store call, no change, no rejection; otherwise the hook rejects iff the user has no id or the store refuses the update, and a rejection changes nothing; on success the store got the update for user.id and the caller's user is its old one overlaid with the updates; isLoading is kept; App's copy is not updated |
| AuthSystem.UpdateLeavesLocalStamp | src/hooks/useAuth.ts:46-47 | after a successful update, the caller's user and the stored profile agree on every field but updatedAt: the store has the clock, the local copy keeps its old stamp unless the update carried one |
| AuthSystem.LogoutReachesApp | src/hooks/useAuth.ts:20-23 | after a successful logout App still shows its user until the identity change reaches it; then App has no user and leaves the main tabs |
| AuthSystem.DeviceCallsLeaveWorld | src/screens/auth/LoginScreen.tsx:56 | calls that neither log in nor register change neither the backend nor any hook instance |
| AuthSystem.BiometricLoginLeavesWorld | src/screens/auth/LoginScreen.tsx:53-67 | whatever the challenge's outcome, the biometric login path leaves the backend and both instances exactly as they were |
| AuthSystem.AvailabilityCheckLeavesWorld | src/screens/auth/LoginScreen.tsx:32-35 | the login screen's availability probe leaves the backend and both instances as they were |
| AuthSystem.RegisterWithoutSubmitLeavesWorld | src/screens/auth/RegisterScreen.tsx:37-54 | an incomplete form, a probe that throws, or an open biometric prompt leave the backend and both instances unchanged |
| AuthSystem.LoginScreenSignsIn | src/screens/auth/LoginScreen.tsx:37-45 | an empty field changes nothing; otherwise the world is exactly the login screen's hook logging in with the typed pair, App's instance is untouched, and on success the screen's instance shows the stored profile |
| AuthSystem.LoginReachesApp | src/hooks/useAuth.ts:12-23 | after a successful login from the login screen, App is unchanged until the identity change reaches it; once App's own fetch succeeds App shows the stored profile and renders the main tabs |
| AuthSystem.PromptAnswerRegisters | src/screens/auth/RegisterScreen.tsx:80-90 | answering the biometric prompt (Enable or Not Now) amounts to one registration by the screen's hook of the payload with the chosen flag, and the un-awaited registration escapes exactly when that hook rejects |
| AuthSystem.UnavailableFlowRegisters | src/screens/auth/RegisterScreen.tsx:44-64 | without biometrics the screen's calls amount to one registration of its payload by the screen's hook |
| AuthSystem.RegistrationScreenStoresProfile | src/screens/auth/RegisterScreen.tsx:57-64 | end to end, biometrics unavailable: the registering screen's own instance shows the stored profile of the new uid, with the form's name, mobile and country, the selected currency, the flag off, no e-mail and no password, and createdAt <= updatedAt; App's instance is untouched |
| AuthSystem.RegistrationReachesApp | src/hooks/useAuth.ts:12-23 | when the identity change reaches App after the registration has finished and App's fetch succeeds, App shows that same profile and renders the main tabs |
| AuthSystem.EarlyIdentityEventMissesProfile | src/services/firebase/auth.ts:17-27 | an identity change handled by App between credential creation and the profile write leaves App with no user (auth screens), and, in the same trace, once register has finished App is still off the main tabs, the signed-in credential has not changed again, and the registering screen's instance shows the profile |

## Left out

- Firebase itself (`createUserWithEmailAndPassword`, `signInWithEmailAndPassword`, `signOut`, `sendPasswordResetEmail`, `setDoc`, `getDoc`, `updateDoc`, `updateProfile`, `onAuthStateChanged`): replaced by map operations, with provider-side failures given by the `down` parameter; the display name written by `updateProfile` is not stored.
- Async interleaving and the subscription lifecycle (the `useEffect` subscription and its cleanup, src/hooks/useAuth.ts:11-27): inputs are applied in the order they settle, one at a time. Whether and when the provider reports an identity change is left to the caller of `AuthSystem.IdentityChanged`; the lemmas about App say what follows once it does.
- AuthService.ResetPassword: states no property about account enumeration, because the source gives none; whether an unknown address fails is up to the provider.
- Error messages, `console.error` logging and the exact values of `new Date()`: every failure is one `Err`, and time is a natural-number clock. The conversion of the JavaScript `Date`s that `register` returns into the Firestore `Timestamp`s that `getDoc(...).data()` later yields is not modelled either, so "the record register returned" and "the record read back" are the same value here.
- Case folding of e-mail addresses covers ASCII letters only; how the provider folds other characters is not modelled.
- Hook instances other than App's and the calling screen's (those of screens outside the auth flow) are not modelled; each behaves like the caller's instance.
- `BiometricService` and `COUNTRIES` (src/services/biometric and src/constants/countries are not part of this model): availability and the challenge outcome are inputs, and the country table is an input with only code and currency.
- UI: rendering, styles, `Alert`s, navigation, the button spinners beyond the `loading` flags, App.tsx beyond the choice `AuthSystem.ShowsMain` states, src/hooks/useTheme.ts, src/screens/main/RemindersScreen.tsx and app.config.ts.
- JavaScript `undefined` written explicitly into a field of a partial update: an absent field is modelled, an explicit `undefined` value is not.

=== FILE: auth_service.dfy ===
/** `AuthService` (src/services/firebase/auth.ts) over the in-memory backend.

    Each operation maps a backend to a `Reply`: the backend afterwards and
    the settled result. Every failure surfaces as the same `Err`, because the
    source wraps each one in a generic `Error`.
 */
module AuthService {
  import opened Outcomes
  import opened Records
  import opened Firebase

  /** Whether `createUserWithEmailAndPassword` succeeds for this payload: it
      needs an address and a password, the address must be unused (whatever
      its case), and the provider must accept the call. */
  predicate CanCreateAccount(b: Backend, draft: Record, down: set<Remote>)
  {
    && draft.email.Some?
    && draft.password.Some?
    && CreateAccount !in down
    && Canonical(draft.email.value) !in b.accounts
  }

  /** The backend once `createUserWithEmailAndPassword` has resolved: the
      account exists and is signed in, no profile has been written yet, and
      `gap` has passed since the first clock reading. */
  function SignedUp(b: Backend, draft: Record, uid: string, gap: nat): (b': Backend)
    requires draft.email.Some? && draft.password.Some?
    ensures Canonical(draft.email.value) in b'.accounts
    ensures b'.accounts[Canonical(draft.email.value)] == Account(uid, draft.password.value)
    ensures forall e :: e in b.accounts && e != Canonical(draft.email.value) ==> e in b'.accounts && b'.accounts[e] == b.accounts[e]
    ensures b'.accounts.Keys == b.accounts.Keys + {Canonical(draft.email.value)}
    ensures b'.profiles == b.profiles && b'.current == Some(uid) && b'.clock == b.clock + gap
  {
    b.(accounts := b.accounts[Canonical(draft.email.value) := Account(uid, draft.password.value)],
       current := Some(uid),
       clock := b.clock + gap)
  }

  /** The record `register` builds, `{ id: uid, ...userInfo, createdAt,
      updatedAt }`, where `userInfo` is the payload without its e-mail
      address and password. A payload field `id` comes later in the spread
      than the credential's uid and so replaces it. */
  function NewProfile(draft: Record, uid: string, createdAt: nat, updatedAt: nat): (user: Record)
    ensures user.email.None? && user.password.None?
    ensures forall f :: f != Id && f != Email && f != Password && f != CreatedAt && f != UpdatedAt ==>
      Get(user, f) == Get(draft, f)
    ensures draft.id.None? ==> user.id == Some(uid)
    ensures draft.id.Some? ==> user.id == draft.id
    ensures user.createdAt == Some(createdAt) && user.updatedAt == Some(updatedAt)
  {
    var userInfo := draft.(email := None, password := None);
    Overlay(Empty.(id := Some(uid)), userInfo).(createdAt := Some(createdAt), updatedAt := Some(updatedAt))
  }

  /** `register(userData)`. The new credential gets the uid `uid` (chosen by
      the provider); `gap` is the time between the two `new Date()` calls. */
  function Register(b: Backend, draft: Record, uid: string, gap: nat, down: set<Remote>): (reply: Reply<Record>)
    // a refused credential changes nothing
    ensures !CanCreateAccount(b, draft, down) ==> reply == Reply(b, Err)
    // once the credential exists the new account is signed in, whatever follows
    ensures CanCreateAccount(b, draft, down) ==>
      var signedUp := SignedUp(b, draft, uid, gap);
      && reply.backend.accounts == signedUp.accounts
      && reply.backend.current == Some(uid)
      && reply.backend.clock == b.clock + gap
    // success returns exactly the record it stored, under that record's id
    ensures reply.result.Ok? ==>
      var user := reply.result.value;
      && user.id.Some?
      && reply.backend.profiles == b.profiles[user.id.value := user]
      && user == NewProfile(draft, uid, b.clock, b.clock + gap)
      && StampsInOrder(user)
    ensures reply.result.Ok? && draft.id.None? ==> reply.result.value.id == Some(uid)
  {
    if !CanCreateAccount(b, draft, down) then Reply(b, Err)
    else
      var signedUp := SignedUp(b, draft, uid, gap);
      var user := NewProfile(draft, uid, b.clock, b.clock + gap);
      if WriteProfile in down then Reply(signedUp, Err)
      else
        var stored := signedUp.(profiles := signedUp.profiles[user.id.value := user]);
        if SetDisplayName in down then Reply(stored, Err) else Reply(stored, Ok(user))
  }

  /** When `register` fails: exactly when the credential is refused, the
      profile write fails or the display-name update fails. A failed write
      leaves a credential without a profile; a failed display-name update
      leaves the profile stored all the same. */
  lemma RegisterOutcome(b: Backend, draft: Record, uid: string, gap: nat, down: set<Remote>)
    ensures
      var reply := Register(b, draft, uid, gap, down);
      && (reply.result.Ok? <==> CanCreateAccount(b, draft, down) && WriteProfile !in down && SetDisplayName !in down)
      && (CanCreateAccount(b, draft, down) && WriteProfile in down ==>
            reply.result.Err? && reply.backend.profiles == b.profiles)
      && (CanCreateAccount(b, draft, down) && draft.id.None? && WriteProfile !in down && SetDisplayName in down ==>
            reply.result.Err? && reply.backend.profiles == b.profiles[uid := NewProfile(draft, uid, b.clock, b.clock + gap)])
  {
  }

  /** Whether `signInWithEmailAndPassword` accepts the pair; the address is
      matched whatever its case, the password exactly. */
  predicate Accepts(b: Backend, email: string, password: string, down: set<Remote>)
  {
    SignIn !in down && Canonical(email) in b.accounts && b.accounts[Canonical(email)].password == password
  }

  /** `login(email, password)`. */
  function Login(b: Backend, email: string, password: string, down: set<Remote>): (reply: Reply<Record>)
    ensures !Accepts(b, email, password, down) ==> reply == Reply(b, Err)
    // an accepted pair signs the account in even when the profile read then fails
    ensures Accepts(b, email, password, down) ==>
      reply.backend == b.(current := Some(b.accounts[Canonical(email)].uid))
    ensures reply.result.Ok? <==>
      Accepts(b, email, password, down) && ReadProfile !in down && b.accounts[Canonical(email)].uid in b.profiles
    ensures reply.result.Ok? ==> reply.result.value == b.profiles[b.accounts[Canonical(email)].uid]
  {
    if !Accepts(b, email, password, down) then Reply(b, Err)
    else
      var uid := b.accounts[Canonical(email)].uid;
      var signedIn := b.(current := Some(uid));
      if ReadProfile in down || uid !in b.profiles then Reply(signedIn, Err)
      else Reply(signedIn, Ok(b.profiles[uid]))
  }

  /** `logout()`: not wrapped, so a provider failure propagates as is. */
  function Logout(b: Backend, down: set<Remote>): (reply: Reply<()>)
    ensures reply.result.Ok? <==> SignOut !in down
    ensures reply.result.Ok? ==> reply.backend.current.None? && reply.backend == b.(current := None)
    ensures reply.result.Err? ==> reply.backend == b
  {
    if SignOut in down then Reply(b, Err) else Reply(b.(current := None), Done)
  }

  /** `resetPassword(email)`: passes the provider's outcome through. Whether
      the provider treats unknown addresses differently is part of `down`. */
  function ResetPassword(b: Backend, email: string, down: set<Remote>): (reply: Reply<()>)
    ensures reply.backend == b
    ensures reply.result.Ok? <==> SendReset !in down
  {
    if SendReset in down then Reply(b, Err) else Reply(b, Done)
  }

  /** `updated` is what `updateDoc` makes of `prior` given
      `{ ...updates, updatedAt: now }`: the given fields replace the stored
      ones, `updatedAt` becomes `now` and every other stored field stays. */
  predicate Merged(prior: Record, updates: Record, now: nat, updated: Record)
  {
    && updated.updatedAt == Some(now)
    && (forall f :: f != UpdatedAt && Get(updates, f).Some? ==> Get(updated, f) == Get(updates, f))
    && (forall f :: f != UpdatedAt && Get(updates, f).None? ==> Get(updated, f) == Get(prior, f))
  }

  /** `updateUser(userId, updates)`. `updateDoc` rejects a missing document. */
  function UpdateUser(b: Backend, userId: string, updates: Record, down: set<Remote>): (reply: Reply<()>)
    ensures reply.result.Ok? <==> MergeProfile !in down && userId in b.profiles
    ensures reply.result.Err? ==> reply.backend == b
    ensures reply.result.Ok? ==>
      && reply.backend == b.(profiles := reply.backend.profiles)
      && reply.backend.profiles.Keys == b.profiles.Keys
      && (forall k :: k in b.profiles && k != userId ==> reply.backend.profiles[k] == b.profiles[k])
      && Merged(b.profiles[userId], updates, b.clock, reply.backend.profiles[userId])
  {
    if MergeProfile in down || userId !in b.profiles then Reply(b, Err)
    else
      var updated := Overlay(b.profiles[userId], updates.(updatedAt := Some(b.clock)));
      Reply(b.(profiles := b.profiles[userId := updated]), Done)
  }

  /** `getCurrentUser()`: reads the profile of the signed-in credential. */
  function GetCurrentUser(b: Backend, down: set<Remote>): (r: Result<Option<Record>>)
    ensures b.current.None? ==> r == Ok(None)
    ensures r.Err? <==> b.current.Some? && ReadProfile in down
    ensures r.Ok? && r.value.Some? <==>
      b.current.Some? && ReadProfile !in down && b.current.value in b.profiles
    ensures r.Ok? && r.value.Some? ==> r.value.value == b.profiles[b.current.value]
  {
    match b.current
    case None => Ok(None)
    case Some(uid) =>
      if ReadProfile in down then Err
      else if uid in b.profiles then Ok(Some(b.profiles[uid]))
      else Ok(None)
  }

  /** With no credential signed in, `getCurrentUser` answers `null` without
      reading the store: neither the stored profiles nor the store's faults
      affect the answer. */
  lemma SignedOutSkipsStore(b: Backend, down: set<Remote>, profiles: map<string, Record>, down': set<Remote>)
    requires b.current.None?
    ensures GetCurrentUser(b, down) == GetCurrentUser(b.(profiles := profiles), down') == Ok(None)
  {
  }

  /** A payload without an `id` whose credential is accepted and whose
      writes go through registers: the profile is stored under the new uid,
      that account is signed in, and the stored record is returned. */
  lemma RegisterStoresUnderUid(b: Backend, draft: Record, uid: string, gap: nat, down: set<Remote>)
    requires CanCreateAccount(b, draft, down) && draft.id.None?
    requires WriteProfile !in down && SetDisplayName !in down
    ensures
      var reply := Register(b, draft, uid, gap, down);
      var user := NewProfile(draft, uid, b.clock, b.clock + gap);
      && reply.result == Ok(user)
      && reply.backend.current == Some(uid)
      && reply.backend.profiles == b.profiles[uid := user]
  {
  }

  /** A successful registration is visible to `getCurrentUser` as exactly
      the returned record. */
  lemma RegisterThenGetCurrentUser(b: Backend, draft: Record, uid: string, gap: nat, down: set<Remote>, down': set<Remote>)
    requires draft.id.None?
    requires Register(b, draft, uid, gap, down).result.Ok?
    requires ReadProfile !in down'
    ensures
      var reply := Register(b, draft, uid, gap, down);
      GetCurrentUser(reply.backend, down') == Ok(Some(reply.result.value))
  {
  }

  /** Logging in with the registered address, typed in any case, and the
      registered password yields the record registration returned, under the
      same id. */
  lemma RegisterThenLogin(b: Backend, draft: Record, uid: string, gap: nat, down: set<Remote>,
                          email: string, down': set<Remote>)
    requires draft.id.None?
    requires Register(b, draft, uid, gap, down).result.Ok?
    requires Canonical(email) == Canonical(draft.email.value)
    requires SignIn !in down' && ReadProfile !in down'
    ensures
      var reply := Register(b, draft, uid, gap, down);
      && Login(reply.backend, email, draft.password.value, down') == Reply(reply.backend, Ok(reply.result.value))
      && reply.result.value.id == Some(uid)
  {
  }

  /** The address is matched whatever its case: two spellings that differ
      only in the case of letters log in, or fail, alike. */
  lemma LoginIgnoresCase(b: Backend, email: string, email': string, password: string, down: set<Remote>)
    requires Canonical(email) == Canonical(email')
    ensures Login(b, email, password, down) == Login(b, email', password, down)
  {
  }

  /** Any other password is refused and leaves the backend as it was. */
  lemma LoginWrongPassword(b: Backend, email: string, password: string, down: set<Remote>)
    requires Canonical(email) in b.accounts && b.accounts[Canonical(email)].password != password
    ensures Login(b, email, password, down) == Reply(b, Err)
  {
  }

  /** After a successful update of the signed-in user's profile,
      `getCurrentUser` shows each updated field and `updatedAt` reads the
      clock at the time of the update. */
  lemma UpdateThenGetCurrentUser(b: Backend, updates: Record, down: set<Remote>, down': set<Remote>)
    requires b.current.Some?
    requires UpdateUser(b, b.current.value, updates, down).result.Ok?
    requires ReadProfile !in down'
    ensures
      var r := GetCurrentUser(UpdateUser(b, b.current.value, updates, down).backend, down');
      && r.Ok? && r.value.Some?
      && (forall f :: f != UpdatedAt && Get(updates, f).Some? ==> Get(r.value.value, f) == Get(updates, f))
      && r.value.value.updatedAt == Some(b.clock)
  {
  }

  /** Time passing between two operations: only the clock moves. */
  function Tick(b: Backend, elapsed: nat): (b': Backend)
    ensures b'.clock >= b.clock && b'.clock - b.clock == elapsed
    ensures b'.accounts == b.accounts && b'.profiles == b.profiles && b'.current == b.current
  {
    b.(clock := b.clock + elapsed)
  }

  /** No stored stamp lies in the future. */
  predicate StampsNotAhead(b: Backend)
  {
    forall k :: k in b.profiles && b.profiles[k].updatedAt.Some? ==> b.profiles[k].updatedAt.value <= b.clock
  }

  /** Registering, updating and time passing keep every stored stamp at or
      before the clock: both registration stamps and the update stamp are
      clock readings, and the update stamp overrides any `updatedAt` the
      updates carry. */
  lemma StampsStayBehindClock(b: Backend, draft: Record, uid: string, gap: nat, userId: string, updates: Record,
                              elapsed: nat, down: set<Remote>)
    requires StampsNotAhead(b)
    ensures StampsNotAhead(Register(b, draft, uid, gap, down).backend)
    ensures StampsNotAhead(UpdateUser(b, userId, updates, down).backend)
    ensures StampsNotAhead(Tick(b, elapsed))
  {
    var r := Register(b, draft, uid, gap, down);
    if r.result.Ok? {
      forall k | k in r.backend.profiles && r.backend.profiles[k].updatedAt.Some?
        ensures r.backend.profiles[k].updatedAt.value <= r.backend.clock
      {
        if k != r.result.value.id.value {
          assert r.backend.profiles[k] == b.profiles[k];
        }
      }
    }
  }

  /** When time has passed since the last write, an update stamps a time
      strictly later than the profile's previous `updatedAt`. With no time
      passing the stamp can repeat: nothing in the update itself moves the
      clock. */
  lemma UpdateAfterTickIsLater(b: Backend, userId: string, updates: Record, elapsed: nat, down: set<Remote>)
    requires StampsNotAhead(b) && elapsed > 0
    requires userId in b.profiles && b.profiles[userId].updatedAt.Some?
    requires UpdateUser(Tick(b, elapsed), userId, updates, down).result.Ok?
    ensures
      var after := UpdateUser(Tick(b, elapsed), userId, updates, down).backend;
      after.profiles[userId].updatedAt.value > b.profiles[userId].updatedAt.value
  {
  }

  /** A second logout straight after a successful one succeeds again when
      the provider is reachable, and changes nothing further; no credential
      is then signed in. */
  lemma LogoutTwice(b: Backend, down: set<Remote>, down': set<Remote>)
    requires Logout(b, down).result.Ok?
    requires SignOut !in down'
    ensures
      var first := Logout(b, down).backend;
      && Logout(first, down') == Reply(first, Done)
      && GetCurrentUser(first, down') == Ok(None)
  {
  }
}

=== FILE: auth_system.dfy ===
/** The hook wired to the service, and the screens wired to the hook.

    Every component that calls `useAuth()` gets a hook instance of its own:
    its own `(user, isLoading)` pair and its own identity subscription. Two
    instances matter here. App's instance decides what is rendered: a
    spinner while it is loading, then the main tabs when its `user` is set
    and the auth screens otherwise. The caller's instance belongs to the
    screen whose handler runs `login`, `register`, `logout` or `updateUser`.
    An action awaits the matching `AuthService` call and updates only its
    caller's instance; App's instance moves only when the identity provider
    reports a change and App's own handler reads the backend.
 */
module AuthSystem {
  import opened Outcomes
  import opened Records
  import opened Firebase
  import opened Screens
  import AuthService
  import UseAuth
  import RegisterScreen
  import LoginScreen

  datatype World = World(backend: Firebase.Backend, app: UseAuth.Session, caller: UseAuth.Session)

  /** The world after a hook action, and whether the action's promise rejects. */
  datatype Step = Step(world: World, raised: bool)

  /** The instance shows exactly the profile stored for the signed-in credential. */
  predicate Shows(b: Backend, s: UseAuth.Session)
  {
    && b.current.Some?
    && b.current.value in b.profiles
    && s.user == Some(b.profiles[b.current.value])
  }

  /** App renders the main tabs rather than the spinner or the auth screens. */
  predicate ShowsMain(w: World)
  {
    !w.app.isLoading && UseAuth.IsAuthenticated(w.app)
  }

  /** One instance's identity handler: it runs with the credential
      `auth.currentUser` holds and, when there is one, with its own
      `getCurrentUser()` fetch, whose faults are `down`. */
  function Notify(b: Backend, s: UseAuth.Session, down: set<Remote>): (s': UseAuth.Session)
    ensures !s'.isLoading
    ensures b.current.None? ==> !UseAuth.IsAuthenticated(s')
    ensures b.current.Some? && ReadProfile in down ==> s'.user == s.user
    ensures b.current.Some? && ReadProfile !in down && b.current.value in b.profiles ==> Shows(b, s')
    ensures b.current.Some? && ReadProfile !in down && b.current.value !in b.profiles ==>
      !UseAuth.IsAuthenticated(s')
  {
    var event :=
      if b.current.None? then UseAuth.SignedOut
      else UseAuth.SignedIn(AuthService.GetCurrentUser(b, down));
    UseAuth.OnAuthStateChanged(s, event)
  }

  /** The provider reports an identity change to every subscribed instance;
      App's fetch and the caller's fetch are separate reads, with faults
      `appDown` and `callerDown`. */
  function IdentityChanged(w: World, appDown: set<Remote>, callerDown: set<Remote>): World
  {
    World(w.backend, Notify(w.backend, w.app, appDown), Notify(w.backend, w.caller, callerDown))
  }

  /** `login` of the caller's hook. */
  function Login(w: World, email: string, password: string, down: set<Remote>): (st: Step)
    ensures st.world.app == w.app
    ensures AuthService.Accepts(w.backend, email, password, down) ==>
      st.world.backend == w.backend.(current := Some(w.backend.accounts[Canonical(email)].uid))
    ensures !AuthService.Accepts(w.backend, email, password, down) ==> st.world.backend == w.backend
    ensures st.raised <==> AuthService.Login(w.backend, email, password, down).result.Err?
    ensures st.raised ==> st.world.caller == w.caller
    ensures !st.raised ==>
      && st.world.backend.current == Some(w.backend.accounts[Canonical(email)].uid)
      && Shows(st.world.backend, st.world.caller)
      && st.world.caller.isLoading == w.caller.isLoading
  {
    var reply := AuthService.Login(w.backend, email, password, down);
    var x := UseAuth.AdoptProfile(w.caller, reply.result);
    Step(World(reply.backend, w.app, x.next), x.raised)
  }

  /** `register` of the caller's hook. */
  function Register(w: World, draft: Record, uid: string, gap: nat, down: set<Remote>): (st: Step)
    ensures st.world.app == w.app
    ensures st.world.backend == AuthService.Register(w.backend, draft, uid, gap, down).backend
    ensures st.raised <==> AuthService.Register(w.backend, draft, uid, gap, down).result.Err?
    ensures st.raised ==> st.world.caller == w.caller
    ensures !st.raised && draft.id.None? ==> Shows(st.world.backend, st.world.caller) && st.world.backend.current == Some(uid)
    ensures st.world.caller.isLoading == w.caller.isLoading
    // `setUser(newUser)` whatever the payload
    ensures !st.raised ==>
      st.world.caller.user == Some(AuthService.Register(w.backend, draft, uid, gap, down).result.value)
  {
    var reply := AuthService.Register(w.backend, draft, uid, gap, down);
    var x := UseAuth.AdoptProfile(w.caller, reply.result);
    Step(World(reply.backend, w.app, x.next), x.raised)
  }

  /** `logout` of the caller's hook. */
  function Logout(w: World, down: set<Remote>): (st: Step)
    ensures st.raised <==> SignOut in down
    ensures st.raised ==> st.world == w
    ensures !st.raised ==>
      && st.world.backend == w.backend.(current := None)
      && st.world.app == w.app
      && !UseAuth.IsAuthenticated(st.world.caller)
      && st.world.caller.isLoading == w.caller.isLoading
  {
    var reply := AuthService.Logout(w.backend, down);
    var x := UseAuth.Logout(w.caller, reply.result);
    Step(World(reply.backend, w.app, x.next), x.raised)
  }

  /** `updateUser` of the caller's hook. Without a user nothing is called and
      nothing changes. A user whose `id` is not a string makes `doc()` throw
      before the store is reached. App's copy of the user is not updated. */
  function UpdateUser(w: World, updates: Record, down: set<Remote>): (st: Step)
    ensures w.caller.user.None? ==> st == Step(w, false)
    ensures st.raised ==> st.world == w
    ensures st.world.app == w.app
    ensures st.world.caller.isLoading == w.caller.isLoading
    // a refused `updateDoc` rejects before `setUser` runs
    ensures w.caller.user.Some? ==>
      (st.raised <==>
        || w.caller.user.value.id.None?
        || AuthService.UpdateUser(w.backend, w.caller.user.value.id.value, updates, down).result.Err?)
    ensures w.caller.user.Some? && !st.raised ==>
      && w.caller.user.value.id.Some?
      && var id := w.caller.user.value.id.value;
      && st.world.backend == AuthService.UpdateUser(w.backend, id, updates, down).backend
      && st.world.caller.user == Some(Overlay(w.caller.user.value, updates))
  {
    match w.caller.user
    case None => Step(w, false)
    case Some(user) =>
      match user.id
      case None => Step(w, true)
      case Some(id) =>
        var reply := AuthService.UpdateUser(w.backend, id, updates, down);
        var x := UseAuth.UpdateUser(w.caller, updates, reply.result);
        Step(World(reply.backend, w.app, x.next), x.raised)
  }

  /** After a successful update from an instance showing the stored profile,
      that instance's user and the stored profile hold the same fields except
      `updatedAt`: the store stamps it with the clock, the local copy keeps
      its previous value unless the update itself carried one. */
  lemma UpdateLeavesLocalStamp(w: World, updates: Record, down: set<Remote>)
    requires Shows(w.backend, w.caller)
    requires w.caller.user.value.id == w.backend.current
    requires !UpdateUser(w, updates, down).raised
    ensures
      var w' := UpdateUser(w, updates, down).world;
      var local := w'.caller.user.value;
      var stored := w'.backend.profiles[w'.backend.current.value];
      && w'.backend.current == w.backend.current
      && AgreeExcept(local, stored, UpdatedAt)
      && stored.updatedAt == Some(w.backend.clock)
      && (updates.updatedAt.None? ==> local.updatedAt == w.caller.user.value.updatedAt)
  {
  }

  /** After a successful logout App's instance still shows its user until the
      provider reports the change; then App falls back to the auth screens. */
  lemma LogoutReachesApp(w: World, down: set<Remote>, appDown: set<Remote>, callerDown: set<Remote>)
    requires SignOut !in down
    ensures
      var w' := Logout(w, down).world;
      && w'.app == w.app
      && !UseAuth.IsAuthenticated(IdentityChanged(w', appDown, callerDown).app)
      && !ShowsMain(IdentityChanged(w', appDown, callerDown))
  {
  }

  /** The environment of a screen's calls: the uid the provider would give a
      new account, the time between two clock readings, and the remote calls
      that fail. */
  datatype Env = Env(uid: string, gap: nat, down: set<Remote>)

  /** A screen's call reaching the hook. The biometric calls stay on the
      device. */
  function Execute(w: World, call: Call, env: Env): Step
  {
    match call
    case ProbeBiometrics => Step(w, false)
    case AuthenticateBiometrics => Step(w, false)
    case SubmitLogin(email, password) => Login(w, email, password, env.down)
    case SubmitRegistration(payload) => Register(w, payload, env.uid, env.gap, env.down)
  }

  /** The world after a screen's calls, made in order. */
  function Perform(w: World, calls: seq<Call>, env: Env): World
    decreases |calls|
  {
    if |calls| == 0 then w else Perform(Execute(w, calls[0], env).world, calls[1..], env)
  }

  /** Calls that neither log in nor register leave the world as it was. */
  lemma {:induction false} DeviceCallsLeaveWorld(w: World, calls: seq<Call>, env: Env)
    requires forall k :: 0 <= k < |calls| ==> !calls[k].SubmitLogin? && !calls[k].SubmitRegistration?
    ensures Perform(w, calls, env) == w
    decreases |calls|
  {
    if |calls| > 0 {
      assert Execute(w, calls[0], env).world == w;
      assert forall k :: 0 <= k < |calls[1..]| ==> calls[1..][k] == calls[k + 1];
      DeviceCallsLeaveWorld(w, calls[1..], env);
    }
  }

  /** Biometric login never touches the backend or any hook instance,
      however the challenge settles. */
  lemma BiometricLoginLeavesWorld(w: World, v: LoginScreen.View, challenge: Result<bool>, env: Env)
    ensures Perform(w, LoginScreen.HandleBiometricLogin(v, challenge).calls, env) == w
  {
    DeviceCallsLeaveWorld(w, LoginScreen.HandleBiometricLogin(v, challenge).calls, env);
  }

  /** The login screen's availability probe leaves the world as it was. */
  lemma AvailabilityCheckLeavesWorld(w: World, v: LoginScreen.View, available: Result<bool>, env: Env)
    ensures Perform(w, LoginScreen.CheckAvailability(v, available).calls, env) == w
  {
    DeviceCallsLeaveWorld(w, LoginScreen.CheckAvailability(v, available).calls, env);
  }

  /** An incomplete registration form, or a probe that throws, or biometrics
      being available (the prompt is still open), leaves the world as it was. */
  lemma RegisterWithoutSubmitLeavesWorld(w: World, v: RegisterScreen.View, countries: seq<RegisterScreen.CountryInfo>,
                                         available: Result<bool>, env: Env)
    requires RegisterScreen.Incomplete(v.form) || available != Ok(false)
    ensures Perform(w, RegisterScreen.HandleRegister(v, countries, available).calls, env) == w
  {
    DeviceCallsLeaveWorld(w, RegisterScreen.HandleRegister(v, countries, available).calls, env);
  }

  /** Signing in from the login screen: with both fields filled the address
      and password typed go to the screen's own hook, whose instance then
      shows the stored profile, while App's instance is not told; with a
      field empty nothing happens. `settled` is how the screen's `login`
      call settled, which the screen only uses to pick an alert. */
  lemma LoginScreenSignsIn(w: World, v: LoginScreen.View, settled: Result<()>, env: Env)
    ensures v.email == "" || v.password == "" ==> Perform(w, LoginScreen.HandleLogin(v, settled).calls, env) == w
    ensures v.email != "" && v.password != "" ==>
      var w' := Perform(w, LoginScreen.HandleLogin(v, settled).calls, env);
      && w' == Login(w, v.email, v.password, env.down).world
      && w'.app == w.app
      && (AuthService.Login(w.backend, v.email, v.password, env.down).result.Ok? ==> Shows(w'.backend, w'.caller))
  {
    var calls := LoginScreen.HandleLogin(v, settled).calls;
    if v.email != "" && v.password != "" {
      assert calls[1..] == [];
      assert Perform(w, calls, env) == Perform(Execute(w, calls[0], env).world, [], env);
    }
  }

  /** What App shows after a login from the login screen: nothing changes
      until the provider reports the new identity; once App's own fetch of the
      profile succeeds it shows the stored profile and renders the main tabs. */
  lemma LoginReachesApp(w: World, v: LoginScreen.View, settled: Result<()>, env: Env,
                        appDown: set<Remote>, callerDown: set<Remote>)
    requires v.email != "" && v.password != ""
    requires AuthService.Login(w.backend, v.email, v.password, env.down).result.Ok?
    requires ReadProfile !in appDown
    ensures
      var w' := Perform(w, LoginScreen.HandleLogin(v, settled).calls, env);
      var w'' := IdentityChanged(w', appDown, callerDown);
      && w'.app == w.app
      && Shows(w''.backend, w''.app)
      && ShowsMain(w'')
  {
    LoginScreenSignsIn(w, v, settled, env);
  }

  /** With biometrics unavailable the registration screen's calls amount to
      one registration by the screen's hook with its payload. */
  lemma UnavailableFlowRegisters(w: World, v: RegisterScreen.View, countries: seq<RegisterScreen.CountryInfo>, env: Env)
    requires !RegisterScreen.Incomplete(v.form) && |countries| > 0
    ensures
      var country := RegisterScreen.SelectedCountry(countries, v.form.country).value;
      var payload := RegisterScreen.Payload(v.form, country, false);
      Perform(w, RegisterScreen.HandleRegister(v, countries, Ok(false)).calls, env)
        == Register(w, payload, env.uid, env.gap, env.down).world
  {
    var country := RegisterScreen.SelectedCountry(countries, v.form.country).value;
    var payload := RegisterScreen.Payload(v.form, country, false);
    var calls := RegisterScreen.HandleRegister(v, countries, Ok(false)).calls;
    assert calls == [ProbeBiometrics, SubmitRegistration(payload)];
    assert calls[1..] == [SubmitRegistration(payload)] && calls[1..][1..] == [];
    assert Perform(w, calls, env) == Perform(w, calls[1..], env);
    var registered := Execute(w, SubmitRegistration(payload), env).world;
    assert Perform(w, calls[1..], env) == Perform(registered, [], env) == registered;
  }

  /** Answering the biometric prompt, Enable or Not Now, amounts to one
      registration by the screen's hook of the payload carrying the chosen
      flag; the un-awaited registration escapes exactly when the hook
      rejects. */
  lemma PromptAnswerRegisters(w: World, v: RegisterScreen.View, countries: seq<RegisterScreen.CountryInfo>,
                              enable: bool, env: Env)
    requires |countries| > 0
    ensures
      var country := RegisterScreen.SelectedCountry(countries, v.form.country).value;
      var st := Register(w, RegisterScreen.Payload(v.form, country, enable), env.uid, env.gap, env.down);
      var e := RegisterScreen.ChooseBiometrics(v, countries, enable, if st.raised then Err else Done);
      && Perform(w, e.calls, env) == st.world
      && (e.escaped <==> st.raised)
  {
    var country := RegisterScreen.SelectedCountry(countries, v.form.country).value;
    var payload := RegisterScreen.Payload(v.form, country, enable);
    var st := Register(w, payload, env.uid, env.gap, env.down);
    var calls := RegisterScreen.ChooseBiometrics(v, countries, enable, if st.raised then Err else Done).calls;
    assert calls == [SubmitRegistration(payload)];
    assert calls[1..] == [];
    assert Perform(w, calls, env) == Perform(Execute(w, calls[0], env).world, [], env);
  }

  /** What an instance shows after the screen's payload has been registered. */
  predicate ShowsRegistration(b: Backend, s: UseAuth.Session, form: RegisterScreen.Form,
                              country: RegisterScreen.CountryInfo, uid: string)
  {
    && Shows(b, s)
    && b.current == Some(uid)
    && var user := s.user.value;
    && user.id == Some(uid)
    && user.fullName == Some(form.fullName)
    && user.mobile == Some(form.mobile)
    && user.country == Some(form.country)
    && user.currency == Some(country.currency)
    && user.biometricEnabled == Some(false)
    && user.email.None? && user.password.None?
    && StampsInOrder(user)
  }

  /** The registration screen end to end, biometrics unavailable: the stored
      profile, which the screen's own hook instance now shows, carries the
      form's name, mobile number and country, the selected country's currency
      and the flag off, but neither the e-mail address nor the password,
      under the new uid; App's instance is untouched. */
  lemma RegistrationScreenStoresProfile(w: World, v: RegisterScreen.View, countries: seq<RegisterScreen.CountryInfo>, env: Env)
    requires !RegisterScreen.Incomplete(v.form) && |countries| > 0
    requires Canonical(v.form.email) !in w.backend.accounts
    requires CreateAccount !in env.down && WriteProfile !in env.down && SetDisplayName !in env.down
    ensures
      var w' := Perform(w, RegisterScreen.HandleRegister(v, countries, Ok(false)).calls, env);
      && ShowsRegistration(w'.backend, w'.caller, v.form, RegisterScreen.SelectedCountry(countries, v.form.country).value, env.uid)
      && w'.app == w.app
  {
    var country := RegisterScreen.SelectedCountry(countries, v.form.country).value;
    var payload := RegisterScreen.Payload(v.form, country, false);
    UnavailableFlowRegisters(w, v, countries, env);
    AuthService.RegisterStoresUnderUid(w.backend, payload, env.uid, env.gap, env.down);
  }

  /** When the provider's report of the new identity reaches App after the
      registration has finished, App's fetch finds the new profile: App shows
      it and renders the main tabs. */
  lemma RegistrationReachesApp(w: World, v: RegisterScreen.View, countries: seq<RegisterScreen.CountryInfo>, env: Env,
                               appDown: set<Remote>, callerDown: set<Remote>)
    requires !RegisterScreen.Incomplete(v.form) && |countries| > 0
    requires Canonical(v.form.email) !in w.backend.accounts
    requires CreateAccount !in env.down && WriteProfile !in env.down && SetDisplayName !in env.down
    requires ReadProfile !in appDown
    ensures
      var w'' := IdentityChanged(Perform(w, RegisterScreen.HandleRegister(v, countries, Ok(false)).calls, env), appDown, callerDown);
      && ShowsRegistration(w''.backend, w''.app, v.form, RegisterScreen.SelectedCountry(countries, v.form.country).value, env.uid)
      && ShowsMain(w'')
  {
    RegistrationScreenStoresProfile(w, v, countries, env);
  }

  /** Creating the credential signs the new account in, so the provider
      reports the identity change while `register` has not yet written the
      profile. When App's fetch runs in that window it finds no profile and
      App shows the auth screens. The rest of `register` does not change the
      signed-in credential, so nothing reports a further change: once
      `register` has finished, App is still on the auth screens although the
      account and its stored profile exist and the registering screen's
      instance shows that profile. `done` is that one trace: the early event,
      then the rest of `register`, whose backend is the one the whole
      `register` leaves. */
  lemma EarlyIdentityEventMissesProfile(w: World, draft: Record, uid: string, gap: nat, down: set<Remote>,
                                        appDown: set<Remote>, callerDown: set<Remote>)
    requires draft.id.None?
    requires AuthService.Register(w.backend, draft, uid, gap, down).result.Ok?
    requires uid !in w.backend.profiles
    requires ReadProfile !in appDown
    ensures
      var early := IdentityChanged(World(AuthService.SignedUp(w.backend, draft, uid, gap), w.app, w.caller), appDown, callerDown);
      var done := Register(World(w.backend, early.app, early.caller), draft, uid, gap, down).world;
      && !early.app.isLoading && !UseAuth.IsAuthenticated(early.app)
      && !ShowsMain(early)
      && done.backend.current == early.backend.current
      && !ShowsMain(done)
      && Shows(done.backend, done.caller)
  {
  }
}

=== FILE: firebase.dfy ===
/** An in-memory stand-in for the two Firebase services the core uses.

    Firebase Authentication becomes a map from e-mail address, in the
    case-insensitive form the provider compares addresses in (`Canonical`),
    to account (its uid and password) plus the slot `auth.currentUser`; Cloud Firestore's
    `users` collection becomes a map from document id to record. `clock` is
    the device clock read by `new Date()`.

    A remote call can fail for reasons the model does not see (the network,
    provider policy such as a weak password or a malformed address, quota):
    every operation takes the set `down` of the calls that fail this time.
 */
module Firebase {
  import opened Outcomes
  import opened Records

  datatype Account = Account(uid: string, password: string)

  /** A character with ASCII upper case folded to lower case. */
  function LowerChar(c: char): char
  {
    if 'A' <= c <= 'Z' then (c as int - 'A' as int + 'a' as int) as char else c
  }

  /** The key an address is looked up under: the provider ignores the case
      of e-mail addresses, so "Ann@x.com" and "ann@x.com" name one account. */
  function Canonical(email: string): (key: string)
    ensures |key| == |email|
    ensures forall i :: 0 <= i < |email| ==> key[i] == LowerChar(email[i])
    decreases |email|
  {
    if |email| == 0 then [] else [LowerChar(email[0])] + Canonical(email[1..])
  }

  /** Folding case twice is folding it once. */
  lemma CanonicalIdempotent(email: string)
    ensures Canonical(Canonical(email)) == Canonical(email)
  {
  }

  /** Two addresses name the same account exactly when they agree letter by
      letter up to the case of ASCII letters. */
  lemma SameAccountIffCaseInsensitive(a: string, b: string)
    ensures Canonical(a) == Canonical(b) <==>
      |a| == |b| && forall i :: 0 <= i < |a| ==> LowerChar(a[i]) == LowerChar(b[i])
  {
    var ka, kb := Canonical(a), Canonical(b);
    if ka == kb {
      forall i | 0 <= i < |a|
        ensures LowerChar(a[i]) == LowerChar(b[i])
      {
        assert ka[i] == kb[i];
      }
    }
    if |a| == |b| && forall i :: 0 <= i < |a| ==> LowerChar(a[i]) == LowerChar(b[i]) {
      assert forall i :: 0 <= i < |ka| ==> ka[i] == kb[i];
    }
  }

  /** The remote calls the core makes. */
  datatype Remote =
    | CreateAccount   // createUserWithEmailAndPassword
    | SignIn          // signInWithEmailAndPassword
    | SignOut         // signOut
    | SendReset       // sendPasswordResetEmail
    | ReadProfile     // getDoc
    | WriteProfile    // setDoc
    | MergeProfile    // updateDoc
    | SetDisplayName  // updateProfile

  datatype Backend = Backend(
    accounts: map<string, Account>,
    profiles: map<string, Record>,
    current: Option<string>,
    clock: nat)

  /** The backend after a call, and what the call settled to. */
  datatype Reply<+T> = Reply(backend: Backend, result: Result<T>)
}

=== FILE: login_screen.dfy ===
/** The handler logic of LoginScreen (src/screens/auth/LoginScreen.tsx). */
module LoginScreen {
  import opened Outcomes
  import opened Screens

  datatype View = View(email: string, password: string, loading: bool, biometricLoading: bool, biometricAvailable: bool)

  const InitialView: View := View("", "", false, false, false)

  /** `checkBiometricAvailability`, run once on mount. Its rejection is not
      caught. */
  function CheckAvailability(v: View, available: Result<bool>): (e: Effect<View>)
    ensures e.calls == [ProbeBiometrics]
    ensures e.escaped <==> available.Err?
    ensures available.Ok? ==> e.view == v.(biometricAvailable := available.value)
    ensures available.Err? ==> e.view == v
  {
    match available
    case Ok(a) => Effect(v.(biometricAvailable := a), [ProbeBiometrics], false)
    case Err => Effect(v, [ProbeBiometrics], true)
  }

  /** The biometric button is rendered only while `biometricAvailable` is
      set: it is hidden on mount and shown once the availability check has
      settled with the answer yes, and only then. */
  lemma BiometricButtonNeedsAvailability(available: Result<bool>)
    ensures !InitialView.biometricAvailable
    ensures CheckAvailability(InitialView, available).view.biometricAvailable <==> available == Ok(true)
  {
  }

  /** `handleLogin`. An empty address or password stops it before `login`;
      otherwise `login` is called with exactly what was typed, and however it
      settles its failure is caught (only an alert follows) and `loading`
      ends false. `loggedIn` is that outcome: the handler only picks an
      alert from it, so it is a parameter just so that the contract covers
      every outcome. */
  function HandleLogin(v: View, loggedIn: Result<()>): (e: Effect<View>)
    ensures !e.escaped
    ensures v.email == "" || v.password == "" ==> e == Effect(v, [], false)
    ensures v.email != "" && v.password != "" ==>
      && e.calls == [SubmitLogin(v.email, v.password)]
      && e.view == v.(loading := false)
  {
    if v.email == "" || v.password == "" then Effect(v, [], false)
    else Effect(v.(loading := false), [SubmitLogin(v.email, v.password)], false)
  }

  /** `handleBiometricLogin`. Whether the challenge succeeds, fails
      (`Ok(false)`) or throws (`Err`) only changes the alert shown: it never
      calls `login`, never escapes, and only `biometricLoading` (reset to
      false) changes. `challenge` is that outcome, a parameter just so that
      the contract covers every outcome. */
  function HandleBiometricLogin(v: View, challenge: Result<bool>): (e: Effect<View>)
    ensures e.calls == [AuthenticateBiometrics]
    ensures !e.escaped
    ensures e.view == v.(biometricLoading := false)
  {
    Effect(v.(biometricLoading := false), [AuthenticateBiometrics], false)
  }
}

=== FILE: outcomes.dfy ===
/** Optional values and the outcome of a call that can throw.

    Every failure in the modelled code is rethrown as one generic `Error`
    whose message is not modelled, so a failed call is just `Err`.
 */
module Outcomes {

  /** A value that may be `null`. */
  datatype Option<+T> = None | Some(value: T)

  /** The settled state of a promise: resolved with a value, or rejected. */
  datatype Result<+T> = Ok(value: T) | Err

  /** A resolved `Promise<void>`. */
  const Done: Result<()> := Ok(())
}

=== FILE: records.dfy ===
/** The shape of the `User` record and of the objects it is built from.

    The source handles profiles as plain JavaScript objects: it spreads them
    (`{ ...user, ...updates }`), destructures fields out of them
    (`const { email, password, ...userInfo } = userData`) and stores them as
    documents. A record here has one optional slot per field a profile, a
    registration payload or a partial update can carry; `None` is an absent
    field.
 */
module Records {
  import opened Outcomes

  datatype Record = Record(
    id: Option<string>,
    fullName: Option<string>,
    email: Option<string>,
    mobile: Option<string>,
    password: Option<string>,
    country: Option<string>,
    currency: Option<string>,
    biometricEnabled: Option<bool>,
    createdAt: Option<nat>,
    updatedAt: Option<nat>)

  /** `{}` */
  const Empty: Record := Record(None, None, None, None, None, None, None, None, None, None)

  /** Field names, for statements about every field at once. */
  datatype Field =
    | Id | FullName | Email | Mobile | Password | Country | Currency
    | BiometricEnabled | CreatedAt | UpdatedAt

  datatype Value = Text(text: string) | Flag(flag: bool) | Stamp(time: nat)

  /** `r[f]`, or `None` when the field is absent. */
  function Get(r: Record, f: Field): Option<Value>
  {
    match f
    case Id => AsText(r.id)
    case FullName => AsText(r.fullName)
    case Email => AsText(r.email)
    case Mobile => AsText(r.mobile)
    case Password => AsText(r.password)
    case Country => AsText(r.country)
    case Currency => AsText(r.currency)
    case BiometricEnabled => if r.biometricEnabled.Some? then Some(Flag(r.biometricEnabled.value)) else None
    case CreatedAt => AsStamp(r.createdAt)
    case UpdatedAt => AsStamp(r.updatedAt)
  }

  function AsText(o: Option<string>): Option<Value>
  {
    if o.Some? then Some(Text(o.value)) else None
  }

  function AsStamp(o: Option<nat>): Option<Value>
  {
    if o.Some? then Some(Stamp(o.value)) else None
  }

  /** The value a spread leaves in one field: a present later field wins. */
  function Later<T>(base: Option<T>, top: Option<T>): Option<T>
  {
    if top.Some? then top else base
  }

  /** Object spread `{ ...base, ...top }`. */
  function Overlay(base: Record, top: Record): (r: Record)
    ensures forall f :: Get(top, f).Some? ==> Get(r, f) == Get(top, f)
    ensures forall f :: Get(top, f).None? ==> Get(r, f) == Get(base, f)
  {
    Record(
      Later(base.id, top.id),
      Later(base.fullName, top.fullName),
      Later(base.email, top.email),
      Later(base.mobile, top.mobile),
      Later(base.password, top.password),
      Later(base.country, top.country),
      Later(base.currency, top.currency),
      Later(base.biometricEnabled, top.biometricEnabled),
      Later(base.createdAt, top.createdAt),
      Later(base.updatedAt, top.updatedAt))
  }

  /** Both timestamps are present and `createdAt` is not after `updatedAt`. */
  predicate StampsInOrder(r: Record)
  {
    r.createdAt.Some? && r.updatedAt.Some? && r.createdAt.value <= r.updatedAt.value
  }

  /** The two records agree on every field except `f`. */
  predicate AgreeExcept(a: Record, b: Record, f: Field)
  {
    forall g :: g != f ==> Get(a, g) == Get(b, g)
  }
}

=== FILE: register_screen.dfy ===
/** The handler logic of RegisterScreen (src/screens/auth/RegisterScreen.tsx).

    The country table `COUNTRIES` is an input: only an entry's code and
    currency matter to the core. Biometric availability is the settled
    outcome of the probe; it rejects when the platform call fails.
 */
module RegisterScreen {
  import opened Outcomes
  import opened Records
  import opened Screens

  datatype Form = Form(fullName: string, email: string, mobile: string, password: string, country: string)

  datatype CountryInfo = CountryInfo(code: string, currency: string)

  /** `loading` drives the button spinner; `showPrompt` shows the
      "Enable Biometric Login?" choice instead of the form. */
  datatype View = View(form: Form, loading: bool, showPrompt: bool)

  const InitialView: View := View(Form("", "", "", "", "AU"), false, false)

  /** Entry `i` is the first one with the given code. */
  predicate FirstWithCode(countries: seq<CountryInfo>, code: string, i: int)
  {
    && 0 <= i < |countries|
    && countries[i].code == code
    && forall j :: 0 <= j < i ==> countries[j].code != code
  }

  /** The index `Array.prototype.find` stops at: the first entry with the code. */
  function FindByCode(countries: seq<CountryInfo>, code: string): (r: Option<nat>)
    ensures r.Some? ==> FirstWithCode(countries, code, r.value)
    ensures r.None? ==> forall j :: 0 <= j < |countries| ==> countries[j].code != code
    decreases |countries|
  {
    if |countries| == 0 then None
    else if countries[0].code == code then Some(0)
    else match FindByCode(countries[1..], code)
      case None => None
      case Some(k) => Some(k + 1)
  }

  /** `COUNTRIES.find(c => c.code === formData.country) || COUNTRIES[0]`;
      `None` stands for `undefined` (an empty table). */
  function SelectedCountry(countries: seq<CountryInfo>, code: string): (c: Option<CountryInfo>)
    ensures c.Some? <==> |countries| > 0
    ensures forall i :: FirstWithCode(countries, code, i) ==> c == Some(countries[i])
    ensures (forall i :: 0 <= i < |countries| ==> countries[i].code != code) && |countries| > 0 ==>
      c == Some(countries[0])
  {
    match FindByCode(countries, code)
    case Some(i) => Some(countries[i])
    case None => if |countries| > 0 then Some(countries[0]) else None
  }

  /** The guard of `handleRegister`: an empty name, address, mobile number or
      password stops it. The country is not checked. */
  predicate Incomplete(form: Form)
  {
    form.fullName == "" || form.email == "" || form.mobile == "" || form.password == ""
  }

  /** `{ ...formData, currency: selectedCountry.currency, biometricEnabled }`:
      every form field, the password and the country code included, plus the
      currency and the flag; nothing else. */
  function Payload(form: Form, country: CountryInfo, biometricEnabled: bool): (p: Record)
    ensures p.id.None? && p.createdAt.None? && p.updatedAt.None?
    ensures p.fullName == Some(form.fullName) && p.email == Some(form.email) && p.mobile == Some(form.mobile)
    ensures p.password == Some(form.password) && p.country == Some(form.country)
    ensures p.currency == Some(country.currency) && p.biometricEnabled == Some(biometricEnabled)
  {
    var fields := Empty.(
      fullName := Some(form.fullName), email := Some(form.email), mobile := Some(form.mobile),
      password := Some(form.password), country := Some(form.country));
    fields.(currency := Some(country.currency), biometricEnabled := Some(biometricEnabled))
  }

  /** `completeRegistration(biometricEnabled)`: the call it makes, if any.
      With no country to read the currency from it throws before calling. */
  function Complete(form: Form, countries: seq<CountryInfo>, biometricEnabled: bool): (calls: seq<Call>)
    ensures |calls| <= 1
    ensures |calls| == 1 <==> |countries| > 0
    ensures |calls| == 1 ==>
      calls[0] == SubmitRegistration(Payload(form, SelectedCountry(countries, form.country).value, biometricEnabled))
  {
    match SelectedCountry(countries, form.country)
    case None => []
    case Some(country) => [SubmitRegistration(Payload(form, country, biometricEnabled))]
  }

  /** `handleRegister`. Every failure inside the `try`, including a rejected
      registration, is caught and shown as an alert, and `loading` ends false. */
  function HandleRegister(v: View, countries: seq<CountryInfo>, available: Result<bool>): (e: Effect<View>)
    // the guard: nothing is probed or submitted, nothing changes
    ensures Incomplete(v.form) ==> e == Effect(v, [], false)
    ensures !Incomplete(v.form) ==>
      && !e.escaped
      && !e.view.loading
      && e.view.form == v.form
      && |e.calls| >= 1 && e.calls[0] == ProbeBiometrics
    // available: only the prompt is shown, nothing is submitted yet
    ensures !Incomplete(v.form) && available == Ok(true) ==>
      e.calls == [ProbeBiometrics] && e.view.showPrompt
    // unavailable: submitted once, with the flag off
    ensures !Incomplete(v.form) && available == Ok(false) ==>
      e.calls == [ProbeBiometrics] + Complete(v.form, countries, false) && e.view.showPrompt == v.showPrompt
    // the probe threw: nothing is submitted
    ensures !Incomplete(v.form) && available.Err? ==>
      e.calls == [ProbeBiometrics] && e.view.showPrompt == v.showPrompt
  {
    if Incomplete(v.form) then Effect(v, [], false)
    else
      var settled := v.(loading := false);
      match available
      case Err => Effect(settled, [ProbeBiometrics], false)
      case Ok(true) => Effect(settled.(showPrompt := true), [ProbeBiometrics], false)
      case Ok(false) => Effect(settled, [ProbeBiometrics] + Complete(v.form, countries, false), false)
  }

  /** The prompt's "Enable" (`enable`) and "Not Now" (`!enable`) buttons:
      hide the prompt, then start `completeRegistration(enable)` without
      awaiting it, so a failure (`registered`) escapes as an unhandled
      rejection. */
  function ChooseBiometrics(v: View, countries: seq<CountryInfo>, enable: bool, registered: Result<()>): (e: Effect<View>)
    ensures e.view == v.(showPrompt := false)
    ensures e.calls == Complete(v.form, countries, enable)
    ensures e.escaped <==> |countries| == 0 || registered.Err?
  {
    var calls := Complete(v.form, countries, enable);
    Effect(v.(showPrompt := false), calls, |calls| == 0 || registered.Err?)
  }

  /** The screen from "Create Account" to the answered prompt: with
      biometrics available the payload is submitted only once the prompt is
      answered, and carries the chosen flag. */
  lemma PromptDefersRegistration(v: View, countries: seq<CountryInfo>, enable: bool, registered: Result<()>)
    requires !Incomplete(v.form) && |countries| > 0
    ensures
      var asked := HandleRegister(v, countries, Ok(true));
      var answered := ChooseBiometrics(asked.view, countries, enable, registered);
      && asked.calls == [ProbeBiometrics]
      && asked.view.showPrompt && !answered.view.showPrompt
      && |answered.calls| == 1
      && answered.calls[0].SubmitRegistration?
      && answered.calls[0].payload.biometricEnabled == Some(enable)
  {
  }

  /** Without biometrics the payload is submitted exactly once, with the
      flag off, the currency of the selected country and the form's fields. */
  lemma UnavailableSubmitsOnce(v: View, countries: seq<CountryInfo>)
    requires !Incomplete(v.form) && |countries| > 0
    ensures
      var e := HandleRegister(v, countries, Ok(false));
      var country := SelectedCountry(countries, v.form.country).value;
      && |e.calls| == 2
      && e.calls[1] == SubmitRegistration(Payload(v.form, country, false))
      && e.calls[1].payload.currency == Some(country.currency)
      && e.calls[1].payload.biometricEnabled == Some(false)
  {
  }

  /** The form starts on Australia, so the default table entry is used only
      when "AU" is missing from the table. */
  lemma InitialCountry(countries: seq<CountryInfo>, i: int)
    requires FirstWithCode(countries, "AU", i)
    ensures SelectedCountry(countries, InitialView.form.country) == Some(countries[i])
  {
  }
}

=== FILE: screens.dfy ===
/** What the auth screens hand to the outside world.

    A screen handler is modelled by the screen state it leaves behind, the
    external calls it makes, in order, and whether a failure escapes it
    (an unhandled promise rejection).
 */
module Screens {
  import opened Records

  datatype Call =
    | ProbeBiometrics                  // BiometricService.isAvailable()
    | AuthenticateBiometrics           // BiometricService.authenticate()
    | SubmitRegistration(payload: Record)         // register(userData) of useAuth
    | SubmitLogin(email: string, password: string) // login(email, password) of useAuth

  datatype Effect<+V> = Effect(view: V, calls: seq<Call>, escaped: bool)
}

=== FILE: use_auth.dfy ===
/** The `useAuth` hook (src/hooks/useAuth.ts) as a state machine.

    The state is the pair of React state cells `(user, isLoading)`. It moves
    on two kinds of input, each carrying the outcome of the awaited call:
    an identity change reported by `onAuthStateChanged`, and one of the
    hook's own actions. Direct actions either settle with a new state or
    reject, in which case the rejection reaches the caller and the state is
    left as it was.
 */
module UseAuth {
  import opened Outcomes
  import opened Records

  datatype Session = Session(user: Option<Record>, isLoading: bool)

  /** The state a freshly mounted hook starts in. */
  const Initial: Session := Session(None, true)

  /** `isAuthenticated: !!user`. */
  predicate IsAuthenticated(s: Session)
  {
    s.user.Some?
  }

  /** What `onAuthStateChanged` reports: a signed-in credential, together with
      how the profile fetch `getCurrentUser()` settled, or no credential. */
  datatype IdentityEvent = SignedIn(fetched: Result<Option<Record>>) | SignedOut

  /** The state after a direct action, and whether its promise rejects. */
  datatype Reaction = Reaction(next: Session, raised: bool)

  /** The `onAuthStateChanged` callback. It never rejects: a failed fetch is
      caught and only logged, leaving the user as it was. */
  function OnAuthStateChanged(s: Session, event: IdentityEvent): (s': Session)
    ensures !s'.isLoading
    ensures event.SignedOut? ==> s'.user.None?
    ensures event.SignedIn? && event.fetched.Ok? ==> s'.user == event.fetched.value
    ensures event.SignedIn? && event.fetched.Err? ==> s'.user == s.user
  {
    match event
    case SignedOut => Session(None, false)
    case SignedIn(Ok(fetched)) => Session(fetched, false)
    case SignedIn(Err) => s.(isLoading := false)
  }

  /** `login` and `register` share one shape: await the service, then
      `setUser` with what it returned. */
  function AdoptProfile(s: Session, returned: Result<Record>): (x: Reaction)
    ensures x.raised <==> returned.Err?
    ensures returned.Err? ==> x.next == s
    ensures returned.Ok? ==> x.next.user == Some(returned.value) && IsAuthenticated(x.next)
    ensures x.next.isLoading == s.isLoading
  {
    match returned
    case Ok(user) => Reaction(s.(user := Some(user)), false)
    case Err => Reaction(s, true)
  }

  /** `logout`: the user is cleared only once sign-out has succeeded. */
  function Logout(s: Session, signedOut: Result<()>): (x: Reaction)
    ensures x.raised <==> signedOut.Err?
    ensures signedOut.Err? ==> x.next == s
    ensures signedOut.Ok? ==> !IsAuthenticated(x.next) && x.next.isLoading == s.isLoading
  {
    if signedOut.Ok? then Reaction(s.(user := None), false) else Reaction(s, true)
  }

  /** `updateUser(updates)`. Without a user it returns at once: no store call
      is made, so the store's outcome `stored` plays no part. Otherwise the
      local user becomes `{ ...user, ...updates }`; the `updatedAt` the store
      sets is not copied into it. */
  function UpdateUser(s: Session, updates: Record, stored: Result<()>): (x: Reaction)
    ensures s.user.None? ==> x == Reaction(s, false)
    ensures s.user.Some? && stored.Err? ==> x == Reaction(s, true)
    ensures s.user.Some? && stored.Ok? ==>
      var prior := s.user.value;
      && !x.raised
      && x.next.isLoading == s.isLoading
      && x.next.user.Some?
      && (forall f :: Get(updates, f).Some? ==> Get(x.next.user.value, f) == Get(updates, f))
      && (forall f :: Get(updates, f).None? ==> Get(x.next.user.value, f) == Get(prior, f))
  {
    match s.user
    case None => Reaction(s, false)
    case Some(user) =>
      if stored.Err? then Reaction(s, true)
      else Reaction(s.(user := Some(Overlay(user, updates))), false)
  }

  /** Everything that can happen to the hook's state, in the order it settles. */
  datatype Input =
    | Changed(event: IdentityEvent)
    | LoginSettled(login: Result<Record>)
    | RegisterSettled(registered: Result<Record>)
    | LogoutSettled(signedOut: Result<()>)
    | UpdateSettled(updates: Record, stored: Result<()>)

  function Apply(s: Session, input: Input): Session
  {
    match input
    case Changed(event) => OnAuthStateChanged(s, event)
    case LoginSettled(r) => AdoptProfile(s, r).next
    case RegisterSettled(r) => AdoptProfile(s, r).next
    case LogoutSettled(r) => Logout(s, r).next
    case UpdateSettled(updates, r) => UpdateUser(s, updates, r).next
  }

  function Run(s: Session, inputs: seq<Input>): Session
    decreases |inputs|
  {
    if |inputs| == 0 then s else Run(Apply(s, inputs[0]), inputs[1..])
  }

  /** No input sets `isLoading` back to true. */
  lemma ApplyKeepsLoadedState(s: Session, input: Input)
    requires !s.isLoading
    ensures !Apply(s, input).isLoading
  {
  }

  /** After any run of inputs, the hook is still loading exactly when it was
      loading to begin with and no identity handler has finished (a
      `Changed` input is a handler that has finished, its fetch settled). */
  lemma {:induction false} LoadingUntilIdentityKnown(s: Session, inputs: seq<Input>)
    ensures Run(s, inputs).isLoading <==>
      s.isLoading && forall k :: 0 <= k < |inputs| ==> !inputs[k].Changed?
    decreases |inputs|
  {
    if |inputs| > 0 {
      LoadingUntilIdentityKnown(Apply(s, inputs[0]), inputs[1..]);
      assert forall k :: 1 <= k < |inputs| ==> inputs[k] == inputs[1..][k - 1];
    }
  }

  /** Once `isLoading` is false it stays false. */
  lemma {:induction false} LoadedStaysLoaded(s: Session, inputs: seq<Input>)
    requires !s.isLoading
    ensures !Run(s, inputs).isLoading
    decreases |inputs|
  {
    if |inputs| > 0 {
      ApplyKeepsLoadedState(s, inputs[0]);
      LoadedStaysLoaded(Apply(s, inputs[0]), inputs[1..]);
    }
  }

  /** From mount, the hook reports loading until its first identity handler finishes. */
  lemma BootLoading(inputs: seq<Input>)
    ensures Run(Initial, inputs).isLoading <==> forall k :: 0 <= k < |inputs| ==> !inputs[k].Changed?
  {
    LoadingUntilIdentityKnown(Initial, inputs);
  }

  /** `isAuthenticated` after each input: true after a successful login or
      register or a fetch that found a profile; false after a successful
      logout, a signed-out event or a fetch that found none; unchanged by
      every rejection. */
  lemma AuthenticationFollowsInputs(s: Session, input: Input)
    ensures input.LoginSettled? && input.login.Ok? ==> IsAuthenticated(Apply(s, input))
    ensures input.RegisterSettled? && input.registered.Ok? ==> IsAuthenticated(Apply(s, input))
    ensures input.LogoutSettled? && input.signedOut.Ok? ==> !IsAuthenticated(Apply(s, input))
    ensures input == Changed(SignedOut) ==> !IsAuthenticated(Apply(s, input))
    ensures input.Changed? && input.event.SignedIn? && input.event.fetched.Ok? ==>
      (IsAuthenticated(Apply(s, input)) <==> input.event.fetched.value.Some?)
    ensures
      || (input.LoginSettled? && input.login.Err?)
      || (input.RegisterSettled? && input.registered.Err?)
      || (input.LogoutSettled? && input.signedOut.Err?)
      || (input.UpdateSettled? && input.stored.Err?)
      || (input.Changed? && input.event.SignedIn? && input.event.fetched.Err?)
      ==> (IsAuthenticated(Apply(s, input)) <==> IsAuthenticated(s))
  {
  }

  /** A rejected direct action, or an update without a user, leaves the
      state as it was. */
  lemma FailedActionsLeaveState(s: Session, input: Input)
    requires
      || (input.LoginSettled? && input.login.Err?)
      || (input.RegisterSettled? && input.registered.Err?)
      || (input.LogoutSettled? && input.signedOut.Err?)
      || (input.UpdateSettled? && (input.stored.Err? || s.user.None?))
    ensures Apply(s, input) == s
  {
  }

  /** Running one input after a history is applying it to the state the
      history left. */
  lemma {:induction false} RunSnoc(s: Session, inputs: seq<Input>, last: Input)
    ensures Run(s, inputs + [last]) == Apply(Run(s, inputs), last)
    decreases |inputs|
  {
    if |inputs| > 0 {
      assert (inputs + [last])[1..] == inputs[1..] + [last];
      RunSnoc(Apply(s, inputs[0]), inputs[1..], last);
    }
  }

  /** The callback has no guard against stale events: whatever happened
      before, including a sign-out after the fetch started, the fetch that
      settles last decides the user, even when it found no profile. */
  lemma LastSettledFetchWins(s: Session, inputs: seq<Input>, fetched: Option<Record>)
    ensures Run(s, inputs + [Changed(SignedIn(Ok(fetched)))]).user == fetched
    ensures !Run(s, inputs + [Changed(SignedIn(Ok(fetched)))]).isLoading
  {
    RunSnoc(s, inputs, Changed(SignedIn(Ok(fetched))));
  }
}
